=== FILE: README.md ===
# Toll highway server: transaction handler model

A Dafny model of the central server of a tolled highway. Toll booths send one
request per connection, `TYPE,plate,point`. The server keeps a ledger of the
vehicles on the highway, each with the toll point where it entered, plus the
number of completed trips and the fees collected. It answers each request with
one line of text.

The model treats each request as one atomic step on an immutable ledger. The
server holds its lock across every check-and-mutate step, so any interleaving
of handlers equals some sequential order of steps. The statistics reader does
not take the lock; see "Left out". The model then folds steps
over sequences of requests and proves the ledger's invariants.

Modules, one per component:

- `Text`: Python's `str.strip()` (the full `str.isspace()` set) and the
  narrower whitespace that `int()` skips, `str.split(',')` with its inverse
  `Join`, and `str.upper()` as far as it matters for matching `ENTRY`/`EXIT`.
- `Numerals`: `int(text)` for the toll point and `str(n)` for printing it.
- `Highway`: the ledger, the fee rule (`RATE`), ENTRY and EXIT as ledger
  operations, and the statistics snapshot.
- `Server`: responses, the field dispatch, the whole-request `Step` and the
  response texts.
- `Traces`: runs of many requests, with accounting and per-plate state-machine
  lemmas.
- `ExitOverflow`: EXIT exactly as written, including the overflow path
  described under Findings.
- `Examples`: sample requests in the booth's message shape, including the
  `ENTRY,ABC123,3` and `EXIT,ABC123,10` pair of client.py line 9, and their
  replies.
- `Wrappers`: `Option`.

Behaviour of the code that the message format of client.py lines 8-9 does not
suggest, which the model keeps:

- Toll points may be any integer, including negatives. The code never checks the
  range.
- Plates may be empty and may contain spaces.
- A blank request gets no response at all.

## Model

| member | source | states |
|---|---|---|
| Text.Trim | server.py:46 | the stripped request is empty or starts and ends with a non-whitespace character |
| Text.TrimSpec | server.py:46 | `strip()` keeps a middle part of the request and drops only whitespace on either side |
| Text.TrimFixedPoint | server.py:46-48 | a request is blank after stripping exactly when it is all whitespace; a string with no surrounding whitespace is unchanged by stripping |
| Text.Split | server.py:49-50 | splitting on `,` yields one more field than there are commas, and no field contains a comma |
| Text.JoinSplit | server.py:49 | rejoining the fields with `,` gives back the stripped request |
| Text.SplitJoin | server.py:49-56 | comma-free fields joined with `,` split back into exactly those fields |
| Text.Upper | server.py:65-78 | upper-casing keeps the length and maps each character on its own |
| Numerals.ParsePadded | server.py:57-58 | `int()` reads back any printed integer, whatever whitespace it skips stands on either side |
| Numerals.ParseSigns | server.py:58 | `int()` accepts every digit group; a leading `+` leaves its value unchanged and a leading `-` negates it |
| Numerals.ParseSeparator | server.py:58 | one `_` between two digit groups is accepted and does not change the value |
| Numerals.IntToString | server.py:74 | the printed toll point is non-empty, starts with a minus sign exactly for a negative value, and is digits otherwise; it has no leading zero: only 0 prints as a numeral starting with `0`, and no numeral starts with `-0` |
| Numerals.ParseRendered | server.py:57-58 | every integer the server prints in a response is read back by `int()` as the same integer |
| Numerals.ParseRejectsNonNumeral | server.py:57-63 | text that does not start with a sign or a digit after whitespace is not a toll point |
| Numerals.ParseRejectsStray | server.py:57-63 | a character anywhere in the text that is not whitespace `int()` skips, a digit, a sign or `_` makes it an invalid toll point (`3.`, `3.0`, `12a`) |
| Numerals.ParseRejectsLooseSeparator | server.py:57-63 | a `_` that is not followed by a digit makes the text an invalid toll point (`1__0`, `1_`) |
| Highway.Fee | server.py:87-88 | the fee is never negative, is zero exactly when entry and exit points coincide, and is the distance times `RATE` in either direction of travel |
| Highway.FeeGeometry | server.py:87-88 | the fee is symmetric in the two points, and the fee of a trip is the sum of the fees of two consecutive legs |
| Highway.TryEnter | server.py:66-74 | ENTRY is refused exactly when the plate is present; otherwise the plate is added at the point, every other plate keeps its entry point, and the counters are unchanged |
| Highway.TryExit | server.py:79-91 | EXIT is refused exactly when the plate is absent; otherwise it reports the stored entry point and the fee, removes only that plate, adds one trip and adds exactly the fee |
| Highway.EnterThenExit | server.py:73-90 | ENTRY of an absent plate at `a` then EXIT at `b` restores the vehicle map, adds one trip and adds `abs(b - a) * RATE` to the fees |
| Highway.ReentryKeepsEntryPoint | server.py:67-73 | a second ENTRY of a present plate is refused, and the first entry point stays recorded |
| Highway.Snap | server.py:114-117 | the statistics show no vehicles exactly when the highway is empty, and non-negative trip and fee totals exactly for a valid ledger; how the values move is stated by `Highway.SnapshotMoves` and `Traces.SnapshotFromStart` |
| Highway.SnapshotMoves | server.py:114-117 | the statistics values move by one vehicle on ENTRY, and by one vehicle, one trip and a non-negative fee on EXIT |
| Server.Dispatch | server.py:56-98 | the toll point is checked before the type, and the type before the ledger; each refusal happens under exactly its condition and leaves the ledger unchanged; every refusal is one of the four (bad point, unknown type, already in, not found); a request that passes every check succeeds, with the ledger that ENTRY or EXIT produces, and names the plate and the parsed point |
| Server.Step | server.py:46-98 | no response exactly for a blank request; `Invalid message format` exactly when the stripped request does not have two commas; only ENTRY or EXIT successes change the ledger, and they change it exactly as the response says |
| Server.ComposedRequest | server.py:46-56 | a booth request `TYPE,plate,point` with nothing to strip reaches the dispatch with exactly those three fields |
| Server.ComposedTrim | server.py:46 | a booth request starting with a non-space and ending with a non-space survives `strip()` unchanged |
| Server.Compose | client.py:11 | a booth request built from comma-free fields splits back into those three fields on the server |
| Server.WrongFieldCount | server.py:49-54 | a request with any field count other than three is refused as malformed, with the ledger unchanged |
| Server.CaseInsensitiveType | server.py:65-78 | two type fields that upper-case alike are handled identically |
| Server.ClientUpperCase | client.py:34-46 | the booth's upper-casing of the type before sending changes nothing in how the server handles it |
| Server.EntrySpellings | server.py:65-78 | `entry`, `Entry`, `ENTRY` all mean ENTRY, and `exit`, `Exit`, `EXIT` all mean EXIT |
| Server.KeywordsUpper | server.py:65-78 | the keywords are their own upper-case form |
| Server.TollPointCheckedBeforeType | server.py:57-65 | an unparsable toll point is reported as such whatever the type field says, and nothing changes |
| Server.ErrorText | server.py:51-96 | the two refusals about a vehicle are the only fixed error texts starting with `V`, and they name the plate right after `Vehicle ` |
| Server.ErrorTextDistinct | server.py:51-96 | two refusals read alike exactly when they are the same refusal about the same plate |
| Server.Render | server.py:51-100 | a blank request gets no text, and a reply starts with `ERROR: ` exactly when the request was refused; a success reply starts with `Vehicle ` followed by the plate, an ENTRY reply ends in a digit, and an EXIT reply ends in `.0` |
| Server.RenderEnteredPoint | server.py:74 | after `Vehicle `, the plate and ` entered at point `, an ENTRY reply holds a numeral that `int()` reads back as the entry point, sign included |
| Server.RenderExitedFigures | server.py:91 | an EXIT reply holds, after `Vehicle `, the plate and ` exited at point `, a numeral that `int()` reads back as the exit point, then `. Fee: `, then a numeral that reads back as the fee, then `.0` |
| Traces.Run | server.py:36-98 | handling a sequence of connections gives one response slot per request |
| Traces.RunResponseAt | server.py:36-98 | the response to each request is what it gets from the ledger the earlier requests left behind |
| Traces.RunSilentOnBlank | server.py:46-48 | within any run, a request goes unanswered exactly when it is blank |
| Traces.RunAccounting | server.py:73-90 | over any run, vehicles on the highway plus completed trips grows by the number of successful ENTRYs; completed trips grows by the number of successful EXITs; the fee total grows by the sum of their fees |
| Traces.SumFeesNonNegative | server.py:87-89 | the fees charged over any run add up to a non-negative amount |
| Traces.RunMonotone | server.py:89-90 | the trip count and the fee total never decrease over a run, and a valid ledger stays valid |
| Traces.SnapshotFromStart | server.py:114-117 | from the empty ledger, vehicles shown plus trips shown equals the successful ENTRYs; trips shown equals the successful EXITs; fees shown is the sum of their fees, never negative |
| Traces.StepPlateMachine | server.py:66-91 | each request moves at most the plate its response names: ABSENT to PRESENT(point) on ENTRY, PRESENT to ABSENT on EXIT |
| Traces.EntryThenExitRequests | server.py:65-93 | booth requests ENTRY then EXIT of an absent plate succeed, restore the vehicle map, add one trip and charge the distance |
| Traces.EntryRequest | server.py:65-76 | a booth ENTRY request is refused as a duplicate exactly when the plate is present, and otherwise enters the plate at the point |
| Traces.ExitRequest | server.py:78-93 | a booth EXIT request is refused as unknown exactly when the plate is absent, and otherwise exits the plate with its fee |
| ExitOverflow.ExitAsWritten | server.py:85-101 | as written, EXIT removes a present plate in every case; it replies with the overflow error exactly when the distance is too large for a double, and succeeds for every smaller distance, reporting the plate, the point and the same receipt as the corrected EXIT; a refused EXIT counts no trip and no fee |
| ExitOverflow.OverflowLosesVehicle | server.py:86-101 | as written, an overflowing EXIT replies with an error but still changes the ledger, and vehicles plus completed trips drops by one |
| ExitOverflow.OverflowExample | server.py:86-101 | ENTRY at 0 then EXIT at ten times the overflow bound empties the highway with no trip counted as written, while the corrected EXIT counts the trip |
| Examples.TwoFields | server.py:49-54 | `ENTRY,ABC123` is refused as malformed |
| Examples.NotANumber | server.py:57-63 | `ENTRY,ABC123,notanumber` is refused for its toll point |
| Examples.NotANumberAt | server.py:57-63 | the same request, built as a booth sends it, is refused for its toll point |
| Examples.TwoFieldsAt | server.py:49-54 | the same request, built from its two fields, is refused as malformed |
| Examples.SeparatorInPoint | server.py:57-63 | `ENTRY,P,` followed by U+001C and `5` is refused for its toll point, because `int()` does not skip U+001C |
| Examples.SeparatorInPointAt | server.py:57-63 | the same request, built as a booth sends it, is refused for its toll point |
| Examples.Honk | server.py:95-98 | `HONK,ABC123,3` is refused as an unknown transaction type |
| Examples.HonkAt | server.py:95-98 | the same request, built as a booth sends it, is refused as an unknown transaction type |
| Examples.EntryAndExit | server.py:66-93 | `ENTRY,ABC123,3` then `EXIT,ABC123,10` from the empty ledger succeed with fee 7 and leave one trip and 7 in fees |
| Examples.EntryAndExitAt | server.py:66-93 | the same two requests, built as a booth sends them, have the same outcome |
| Examples.EntryText | server.py:74 | the reply text for that ENTRY is `Vehicle ABC123 entered at point 3` |
| Examples.ExitText | server.py:91 | the reply text for that EXIT is `Vehicle ABC123 exited at point 10. Fee: 7.0` |

## Left out

- Socket I/O is not modelled: `recv(1024)` and its truncation of long requests, UTF-8 decoding and its errors, `sendall`, and closing the connection. A request is given to the model as an already decoded string.
- Processes, the `Manager` proxies and the lock are not modelled. Each transaction is one atomic step, which the lock around every check-and-mutate step justifies. The error replies sent while the lock is held have no effect on the ledger.
- Logging (`setup_logging` and every `logging` call) is not modelled, and neither is the text of the periodic statistics line. Only its three values are modelled, as `Highway.Snap`.
- The statistics loop, its five-second sleep and the stop event are not modelled. Neither are the accept loop with its timeout, port parsing in `main`, or the client's argument collection. Only the client's message shape (client.py line 11), as `Server.Compose`, and its upper-casing of the type (lines 34 and 46), in `Server.ClientUpperCase`, are used.
- The catch-all handler (server.py lines 99-102) is modelled only for the one fault that ledger logic can raise, the float overflow in `ExitOverflow`. Other faults come from I/O.
- Highway.Fee: fees and the fee total are exact integers with `RATE` = 1. The server uses floats (`RATE = 1.0`, a `'d'` total), so distances above 2^53 and large running totals would be rounded there.
- Server.Render: every fee is printed as its integer followed by `.0`. Python prints fees of 10^16 or more in exponent form (`1e+16`).
- Numerals.ParseInt: it accepts a sign, ASCII digits and single `_` separators, surrounded by the whitespace `int()` skips: the ASCII `\t\n\v\f\r` and space and the non-ASCII `str.isspace()` characters, but not U+001C..U+001F. Non-ASCII decimal digits, which `int()` also accepts, are rejected. The limit of 4300 digits that newer Python versions place on `int()` is not modelled.
- Text.Upper: it maps `a`..`z`, U+0131 and U+017F, the only single-character upper-case mappings that produce ASCII letters. Other characters keep their case. This does not change whether a type field matches `ENTRY` or `EXIT`.
- Highway.Snap: `stats_display` (server.py lines 104-117, started at lines 159-161) reads `len(vehicles)`, `total_vehicles.value` and `total_fees.value` one at a time and without the lock. A printed line can therefore mix two states, for example when an EXIT runs between lines 86 and 90. `Snap`, `SnapshotMoves` and `SnapshotFromStart` describe only snapshots taken between transactions.
- Counters are unbounded integers. The `Manager` values hold Python objects, so nothing wraps around in the source either.

## Findings

| source | as written | input that shows it | evidently intended | confidence | as-written member | corrected member |
|---|---|---|---|---|---|---|
| server.py:86-101 | EXIT pops the plate (line 86) before computing `distance * RATE` (line 88). That multiplication converts the distance to a float and raises `OverflowError` when the distance is at least 2^1024 - 2^970. The catch-all then replies `ERROR: int too large to convert to float`. By then the plate is gone, and neither the trip nor a fee is counted. | `ENTRY,P,0` then `EXIT,P,` followed by a 310-digit toll point such as 10^309 | an EXIT removes the plate, counts the trip and charges the fee together, or changes nothing | not executed; the overflow threshold follows CPython's round-half-even conversion of integers to doubles | ExitOverflow.OverflowExample | Highway.TryExit |

The rest of the model uses the corrected EXIT, `Highway.TryExit`, through
`Server.Step`. `Traces.RunAccounting` proves the accounting invariant for it.
`ExitOverflow.OverflowLosesVehicle` shows that the as-written EXIT breaks that
invariant for every overflowing exit.

=== FILE: examples.dfy ===
/** Sample requests in the booth's message shape (client.py line 11, with the
    `ENTRY,ABC123,3` and `EXIT,ABC123,10` examples of its line 9) and the
    replies the model gives them. */
module Examples {

  import opened Wrappers
  import Text
  import Numerals
  import opened Highway
  import opened Server
  import opened Traces

  /** `ENTRY,ABC123` has two fields only. */
  lemma TwoFields()
    ensures Step("ENTRY,ABC123", Empty) == (Failed(InvalidFormat), Empty)
  {
    var msg := "ENTRY" + "," + "ABC123";
    assert msg == "ENTRY,ABC123";
    TwoFieldsAt(msg);
  }

  lemma TwoFieldsAt(msg: string)
    requires msg == "ENTRY" + "," + "ABC123"
    ensures Step(msg, Empty) == (Failed(InvalidFormat), Empty)
  {
    assert msg == Text.Join(["ENTRY", "ABC123"]);
    assert msg[0] == 'E' && msg[|msg| - 1] == '3';
    Text.TrimFixedPoint(msg);
    WrongFieldCount(["ENTRY", "ABC123"], Empty);
  }

  /** `ENTRY,ABC123,notanumber` has no integer toll point. */
  lemma NotANumber()
    ensures Step("ENTRY,ABC123,notanumber", Empty) == (Failed(InvalidTollPoint), Empty)
  {
    var point := "notanumber";
    var msg := "ENTRY" + "," + "ABC123" + "," + point;
    assert msg == "ENTRY,ABC123,notanumber";
    NotANumberAt(point);
  }

  lemma NotANumberAt(point: string)
    requires point == "notanumber"
    ensures Step(Compose("ENTRY", "ABC123", point), Empty) == (Failed(InvalidTollPoint), Empty)
  {
    assert point[0] == 'n' && point[|point| - 1] == 'r' && ',' !in point;
    Text.TrimFixedPoint(point);
    Numerals.ParseRejectsNonNumeral(point);
    TollPointCheckedBeforeType("ENTRY", "ABC123", point, Empty);
  }

  /** `int()` does not skip the information separator U+001C, although
      `strip()` would drop it from either end of a request; so
      `ENTRY,P,<U+001C>5` is refused for its toll point. */
  lemma SeparatorInPoint()
    ensures Step("ENTRY,P,\U{1C}5", Empty) == (Failed(InvalidTollPoint), Empty)
  {
    var point := "\U{1C}5";
    var msg := "ENTRY" + "," + "P" + "," + point;
    assert msg == "ENTRY,P,\U{1C}5";
    SeparatorInPointAt(point);
  }

  lemma SeparatorInPointAt(point: string)
    requires point == "\U{1C}5"
    ensures Step(Compose("ENTRY", "P", point), Empty) == (Failed(InvalidTollPoint), Empty)
  {
    assert !Text.IsBlank(point[0], Text.IntSpace) && !Text.IsBlank(point[1], Text.IntSpace);
    assert Text.StripBy(point, Text.IntSpace) == point;
    Numerals.ParseRejectsNonNumeral(point);
    TollPointCheckedBeforeType("ENTRY", "P", point, Empty);
  }

  /** `HONK,ABC123,3` names no known transaction. */
  lemma Honk()
    ensures Step("HONK,ABC123,3", Empty) == (Failed(UnknownTransactionType), Empty)
  {
    var p3 := Numerals.IntToString(3);
    assert p3 == "3";
    var msg := "HONK" + "," + "ABC123" + "," + p3;
    assert msg == "HONK,ABC123,3";
    HonkAt(msg);
  }

  lemma HonkAt(msg: string)
    requires msg == Compose("HONK", "ABC123", Numerals.IntToString(3))
    ensures Step(msg, Empty) == (Failed(UnknownTransactionType), Empty)
  {
    var p3 := Numerals.IntToString(3);
    assert ',' !in p3;
    ComposedRequest("HONK", "ABC123", p3, Empty);
    Numerals.ParseRendered(3);
    assert Text.Upper("HONK")[0] == 'H';
  }

  /** ENTRY of ABC123 at point 3, then its EXIT at point 10. */
  lemma EntryAndExit()
    ensures Run(["ENTRY,ABC123,3", "EXIT,ABC123,10"], Empty) ==
      ([Entered("ABC123", 3), Exited("ABC123", 10, 7)], Ledger(map[], 1, 7))
  {
    var p3, p10 := Numerals.IntToString(3), Numerals.IntToString(10);
    assert p3 == "3" && p10 == "10";
    var m1, m2 := "ENTRY" + "," + "ABC123" + "," + p3, "EXIT" + "," + "ABC123" + "," + p10;
    assert m1 == "ENTRY,ABC123,3" && m2 == "EXIT,ABC123,10";
    EntryAndExitAt(m1, m2);
  }

  lemma EntryAndExitAt(m1: string, m2: string)
    requires m1 == Compose("ENTRY", "ABC123", Numerals.IntToString(3))
    requires m2 == Compose("EXIT", "ABC123", Numerals.IntToString(10))
    ensures Run([m1, m2], Empty) == ([Entered("ABC123", 3), Exited("ABC123", 10, 7)], Ledger(map[], 1, 7))
  {
    EntryThenExitRequests("ABC123", 3, 10, Empty);
  }

  /** The text sent back for that ENTRY. */
  lemma EntryText()
    ensures Render(Entered("ABC123", 3)) == Some("Vehicle ABC123 entered at point 3")
  {
    assert Numerals.IntToString(3) == "3";
    assert "Vehicle " + "ABC123" + " entered at point " + "3" == "Vehicle ABC123 entered at point 3";
  }

  /** The text sent back for that EXIT, with the fee printed as a float. */
  lemma ExitText()
    ensures Render(Exited("ABC123", 10, 7)) == Some("Vehicle ABC123 exited at point 10. Fee: 7.0")
  {
    var point, fee := Numerals.IntToString(10), Numerals.IntToString(7);
    assert point == "10";
    assert fee == "7";
    var body := " exited at point " + point + ". Fee: " + fee;
    assert body == " exited at point 10. Fee: 7";
    ExitTextAt("Vehicle " + "ABC123", body);
  }

  lemma ExitTextAt(head: string, body: string)
    requires head == "Vehicle ABC123" && body == " exited at point 10. Fee: 7"
    ensures head + body + ".0" == "Vehicle ABC123 exited at point 10. Fee: 7.0"
  {
  }
}

=== FILE: exit_overflow.dfy ===
/** EXIT as the server writes it (server.py lines 85-91 together with the
    catch-all handler of lines 99-101). The plate is popped from the map
    before the fee is computed, and the fee is `distance * RATE` with `RATE`
    the float 1.0, so the distance is converted to a double. For a distance
    too large for a double Python raises `OverflowError`; the catch-all
    answers with an error, but the plate is already gone and the trip is
    never counted. */
module ExitOverflow {

  import opened Wrappers
  import opened Highway
  import opened Server

  /** The least integer whose conversion to a double rounds beyond the
      largest finite double, 2^1024 - 2^970. */
  const DoubleOverflowBound: int := 179769313486231580793728971405303415079934132710037826936173778980444968292764750946649017977587207096330286416692887910946555547851940402630657488671505820681908902000708383676273854845817711531764475730270069855571366959622842914819860834936475292719074168444365510704342711559699508093042880177904174497792

  /** The message of the `OverflowError`, which the catch-all sends back
      after `ERROR: `. */
  const OverflowReason: string := "int too large to convert to float"

  /** EXIT as written: pop, then compute the fee, which can raise. */
  function ExitAsWritten(l: Ledger, plate: string, point: int): (r: (Response, Ledger))
    ensures plate !in l.vehicles ==> r == (Failed(NotFoundInHighway(plate)), l)
    ensures plate in l.vehicles ==> r.1.vehicles == l.vehicles - {plate}
    ensures r.0.Exited? ==> r.0.plate == plate && r.0.point == point
    ensures r.0.Exited? ==> Some(Receipt(r.1, l.vehicles[plate], r.0.fee)) == TryExit(l, plate, point)
    ensures r.0 == Failed(Internal(OverflowReason)) <==>
      plate in l.vehicles && Abs(point - l.vehicles[plate]) >= DoubleOverflowBound
    ensures plate in l.vehicles && Abs(point - l.vehicles[plate]) < DoubleOverflowBound ==> r.0.Exited?
    ensures r.0.Failed? ==> r.1.completedCount == l.completedCount && r.1.totalFees == l.totalFees
  {
    if plate !in l.vehicles then (Failed(NotFoundInHighway(plate)), l)
    else
      var entryPoint := l.vehicles[plate];
      var vehicles := l.vehicles - {plate};
      var distance := Abs(point - entryPoint);
      if distance >= DoubleOverflowBound then
        (Failed(Internal(OverflowReason)), l.(vehicles := vehicles))
      else
        var fee := distance * RATE;
        (Exited(plate, point, fee), Ledger(vehicles, l.completedCount + 1, l.totalFees + fee))
  }

  /** As written, an overflowing EXIT answers with an error yet changes the
      ledger: the vehicle leaves the highway without a completed trip, so
      vehicles on the highway plus completed trips drops by one and no
      longer equals the number of successful entries. */
  lemma OverflowLosesVehicle(l: Ledger, plate: string, point: int)
    requires plate in l.vehicles && Abs(point - l.vehicles[plate]) >= DoubleOverflowBound
    ensures ExitAsWritten(l, plate, point).0.Failed?
    ensures ExitAsWritten(l, plate, point).1 != l
    ensures var l' := ExitAsWritten(l, plate, point).1;
      |l'.vehicles| + l'.completedCount == |l.vehicles| + l.completedCount - 1
  {
  }

  /** The requests `ENTRY,P,0` then `EXIT,P,10^309` from the empty ledger:
      as written the second gets an error and leaves an empty highway with
      no completed trip, while the corrected EXIT counts the trip. */
  lemma OverflowExample()
    ensures var l1 := TryEnter(Empty, "P", 0).value;
      var point := DoubleOverflowBound * 10;
      && ExitAsWritten(l1, "P", point) == (Failed(Internal(OverflowReason)), Empty)
      && TryExit(l1, "P", point).value.ledger.completedCount == 1
      && TryExit(l1, "P", point).value.ledger.vehicles == map[]
  {
  }
}

=== FILE: highway.dfy ===
/** The server's shared state (server.py lines 151-155): the vehicles now on
    the highway with the toll point where each entered, the number of
    completed trips and the fees collected. Each operation here is one
    critical section of the handler, run as one atomic step. */
module Highway {

  import opened Wrappers

  /** Fee per unit of distance between toll points (server.py line 8),
      taken as the integer 1 instead of the float 1.0. */
  const RATE: int := 1

  datatype Ledger = Ledger(vehicles: map<string, int>, completedCount: int, totalFees: int)

  /** The ledger the server starts with. */
  const Empty: Ledger := Ledger(map[], 0, 0)

  /** The counters only ever grow from zero. */
  predicate Valid(l: Ledger) {
    l.completedCount >= 0 && l.totalFees >= 0
  }

  function Abs(x: int): nat {
    if x < 0 then -x else x
  }

  /** Fee for a trip between two toll points (server.py lines 87-88). */
  function Fee(entryPoint: int, exitPoint: int): (f: int)
    ensures f >= 0
    ensures f == 0 <==> entryPoint == exitPoint
    ensures exitPoint >= entryPoint ==> f == (exitPoint - entryPoint) * RATE
    ensures exitPoint < entryPoint ==> f == (entryPoint - exitPoint) * RATE
  {
    Abs(exitPoint - entryPoint) * RATE
  }

  /** The fee does not depend on the direction of travel, and the fee of a
      trip equals the fees of two consecutive legs that make it up. */
  lemma FeeGeometry(a: int, b: int, c: int)
    ensures Fee(a, b) == Fee(b, a)
    ensures a <= b <= c || c <= b <= a ==> Fee(a, c) == Fee(a, b) + Fee(b, c)
  {
  }

  /** ENTRY under the lock (server.py lines 66-74): refused when the plate
      is already on the highway, otherwise the plate is recorded at `point`. */
  function TryEnter(l: Ledger, plate: string, point: int): (r: Option<Ledger>)
    ensures r.None? <==> plate in l.vehicles
    ensures r.Some? ==> plate in r.value.vehicles && r.value.vehicles[plate] == point
    ensures r.Some? ==> r.value.vehicles.Keys == l.vehicles.Keys + {plate}
    ensures r.Some? ==> forall p :: p in l.vehicles ==> r.value.vehicles[p] == l.vehicles[p]
    ensures r.Some? ==> r.value.completedCount == l.completedCount && r.value.totalFees == l.totalFees
  {
    if plate in l.vehicles then None
    else Some(l.(vehicles := l.vehicles[plate := point]))
  }

  /** What a successful EXIT reports: the ledger after it, where the
      vehicle entered, and the fee charged. */
  datatype Receipt = Receipt(ledger: Ledger, entryPoint: int, fee: int)

  /** EXIT under the lock (server.py lines 79-91): refused when the plate is
      not on the highway; otherwise the plate is removed, the trip is counted
      and its fee added, all in the same step. */
  function TryExit(l: Ledger, plate: string, point: int): (r: Option<Receipt>)
    ensures r.None? <==> plate !in l.vehicles
    ensures r.Some? ==> r.value.entryPoint == l.vehicles[plate]
    ensures r.Some? ==> r.value.fee == Fee(l.vehicles[plate], point) && r.value.fee >= 0
    ensures r.Some? ==> r.value.ledger.vehicles.Keys == l.vehicles.Keys - {plate}
    ensures r.Some? ==> forall p :: p in r.value.ledger.vehicles ==> r.value.ledger.vehicles[p] == l.vehicles[p]
    ensures r.Some? ==> r.value.ledger.completedCount == l.completedCount + 1
    ensures r.Some? ==> r.value.ledger.totalFees == l.totalFees + r.value.fee
  {
    if plate !in l.vehicles then None
    else
      var entryPoint := l.vehicles[plate];
      var fee := Fee(entryPoint, point);
      Some(Receipt(Ledger(l.vehicles - {plate}, l.completedCount + 1, l.totalFees + fee), entryPoint, fee))
  }

  /** The three values the statistics line reads (server.py lines 114-117). */
  datatype Snapshot = Snapshot(current: nat, completed: int, fees: int)

  /** The three values the statistics loop reports (server.py lines
      114-117): vehicles on the highway, completed trips and fees. */
  function Snap(l: Ledger): (s: Snapshot)
    ensures s.current == 0 <==> l.vehicles == map[]
    ensures Valid(l) <==> s.completed >= 0 && s.fees >= 0
  {
    Snapshot(|l.vehicles|, l.completedCount, l.totalFees)
  }

  /** An ENTRY followed by an EXIT of the same plate leaves the vehicles
      exactly as they were, counts one trip and charges the distance. */
  lemma EnterThenExit(l: Ledger, plate: string, a: int, b: int)
    requires plate !in l.vehicles
    ensures TryEnter(l, plate, a).Some?
    ensures TryExit(TryEnter(l, plate, a).value, plate, b).Some?
    ensures var rc := TryExit(TryEnter(l, plate, a).value, plate, b).value;
      && rc.entryPoint == a
      && rc.fee == Abs(b - a) * RATE
      && rc.ledger.vehicles == l.vehicles
      && rc.ledger.completedCount == l.completedCount + 1
      && rc.ledger.totalFees == l.totalFees + Abs(b - a) * RATE
  {
  }

  /** A second ENTRY of a plate on the highway changes nothing, in
      particular not the entry point already recorded. */
  lemma ReentryKeepsEntryPoint(l: Ledger, plate: string, a: int, b: int)
    requires plate !in l.vehicles
    ensures TryEnter(l, plate, a).Some?
    ensures TryEnter(TryEnter(l, plate, a).value, plate, b).None?
    ensures TryEnter(l, plate, a).value.vehicles[plate] == a
  {
  }

  /** The snapshot moves by one vehicle on ENTRY and by one vehicle, one
      trip and the fee on EXIT; the counters never go down. */
  lemma SnapshotMoves(l: Ledger, plate: string, point: int)
    ensures TryEnter(l, plate, point).Some? ==>
      var s := Snap(TryEnter(l, plate, point).value);
      s.current == Snap(l).current + 1 && s.completed == Snap(l).completed && s.fees == Snap(l).fees
    ensures TryExit(l, plate, point).Some? ==>
      var s := Snap(TryExit(l, plate, point).value.ledger);
      && s.current + 1 == Snap(l).current
      && s.completed == Snap(l).completed + 1
      && Snap(l).fees <= s.fees
  {
  }
}

=== FILE: numerals.dfy ===
/** Python's `int(text)` for a base-10 toll point (server.py line 58) and
    `str(n)` for printing it back in a response. */
module Numerals {

  import opened Wrappers
  import Text

  predicate IsDigit(c: char) {
    '0' <= c <= '9'
  }

  /** The digit part of an integer literal as `int()` accepts it: ASCII
      digits, where a single `_` may separate two digits. */
  predicate IsDigitGroup(b: string) {
    && |b| > 0
    && IsDigit(b[0])
    && (forall i :: 0 <= i < |b| ==> IsDigit(b[i]) || b[i] == '_')
    && (forall i :: 0 <= i < |b| ==> SeparatesDigits(b, i))
  }

  /** A `_` at position `i` of `b` must be followed by a digit. */
  predicate SeparatesDigits(b: string, i: nat)
    requires i < |b|
  {
    b[i] == '_' ==> i + 1 < |b| && IsDigit(b[i + 1])
  }

  /** The value of a digit group read in base 10, separators skipped. */
  function DigitsValue(b: string): nat {
    if b == [] then 0
    else
      var c := b[|b| - 1];
      if IsDigit(c) then DigitsValue(b[..|b| - 1]) * 10 + (c as int - '0' as int)
      else DigitsValue(b[..|b| - 1])
  }

  /** `int(text)` (server.py line 58): the whitespace `int()` skips is
      ignored around an integer literal; anything else is the `ValueError`
      the handler reports as an invalid toll point. */
  function ParseInt(text: string): Option<int> {
    var t := Text.StripBy(text, Text.IntSpace);
    if |t| > 0 && (t[0] == '+' || t[0] == '-') then
      if IsDigitGroup(t[1..]) then
        var v: int := DigitsValue(t[1..]);
        Some(if t[0] == '-' then -v else v)
      else None
    else if IsDigitGroup(t) then Some(DigitsValue(t))
    else None
  }

  function DigitChar(d: nat): (c: char)
    requires d < 10
    ensures IsDigit(c) && c as int - '0' as int == d
  {
    ('0' as int + d) as char
  }

  /** `str(n)` for a non-negative integer: its shortest decimal numeral. */
  function NatToString(n: nat): (s: string)
    ensures |s| > 0
    ensures forall i :: 0 <= i < |s| ==> IsDigit(s[i])
    ensures s[0] == '0' <==> n == 0
    ensures n == 0 ==> s == "0"
  {
    if n < 10 then [DigitChar(n)] else NatToString(n / 10) + [DigitChar(n % 10)]
  }

  /** `str(n)` for any integer: a minus sign for negative values. */
  function IntToString(n: int): (s: string)
    ensures |s| > 0 && IsDigit(s[|s| - 1])
    ensures IsDigit(s[0]) || s[0] == '-'
    ensures s[0] == '-' <==> n < 0
    ensures forall i :: 0 < i < |s| ==> IsDigit(s[i])
    ensures s[0] == '0' ==> s == "0"
    ensures s[0] == '-' ==> |s| > 1 && s[1] != '0'
  {
    if n < 0 then "-" + NatToString(-n) else NatToString(n)
  }

  lemma {:induction false} NatToStringValue(n: nat)
    ensures IsDigitGroup(NatToString(n))
    ensures DigitsValue(NatToString(n)) == n
  {
    var s := NatToString(n);
    if n >= 10 {
      NatToStringValue(n / 10);
      assert s[..|s| - 1] == NatToString(n / 10);
    }
  }

  /** Every numeral the server prints is read back by `int()` as the same
      integer. */
  lemma ParseRendered(n: int)
    ensures ParseInt(IntToString(n)) == Some(n)
  {
    if n < 0 {
      var m: nat := -n;
      NatToStringValue(m);
      ParseSigned('-', NatToString(m));
      assert IntToString(n) == ['-'] + NatToString(m);
    } else {
      NatToStringValue(n);
      ParseDigitGroup(NatToString(n));
    }
  }

  /** Text that, once stripped, starts with neither a sign nor a digit is
      not an integer. */
  lemma ParseRejectsNonNumeral(text: string)
    requires var t := Text.StripBy(text, Text.IntSpace); t == [] || (!IsDigit(t[0]) && t[0] != '+' && t[0] != '-')
    ensures ParseInt(text).None?
  {
  }

  /** A character anywhere in the text that is neither whitespace, nor a
      digit, nor a sign, nor a separator makes `int()` fail: `3.`, `3.0`
      and `12a` are not toll points. */
  lemma ParseRejectsStray(text: string, i: nat)
    requires i < |text|
    requires !IsDigit(text[i]) && text[i] != '+' && text[i] != '-' && text[i] != '_'
    requires !Text.IsBlank(text[i], Text.IntSpace)
    ensures ParseInt(text).None?
  {
    var j := StrippedIndex(text, i);
    var t := Text.StripBy(text, Text.IntSpace);
    if |t| > 0 && (t[0] == '+' || t[0] == '-') {
      assert j > 0 && t[1..][j - 1] == t[j];
    }
  }

  /** A separator not followed by a digit makes `int()` fail: `1__0`, `1_`
      and `1_.` are not toll points. */
  lemma ParseRejectsLooseSeparator(text: string, i: nat)
    requires i < |text| && text[i] == '_'
    requires i + 1 == |text| || !IsDigit(text[i + 1])
    ensures ParseInt(text).None?
  {
    var j := StrippedIndex(text, i);
    var t := Text.StripBy(text, Text.IntSpace);
    assert j + 1 == |t| || t[j + 1] == text[i + 1] by {
      if j + 1 < |t| {
        StrippedNext(text, i, j);
      }
    }
    assert !SeparatesDigits(t, j);
    if t[0] == '+' || t[0] == '-' {
      assert j > 0 && t[1..][j - 1] == t[j];
      assert !SeparatesDigits(t[1..], j - 1);
    }
  }

  /** A character that is not whitespace of `int()` lies inside the
      stripped text, at the returned index. */
  lemma StrippedIndex(text: string, i: nat) returns (j: nat)
    requires i < |text| && !Text.IsBlank(text[i], Text.IntSpace)
    ensures var t := Text.StripBy(text, Text.IntSpace); j < |t| && t[j] == text[i]
    ensures j == i - Text.LeadingSpaces(text, Text.IntSpace)
  {
    var a := Text.LeadingSpaces(text, Text.IntSpace);
    var b := Text.TrailingStart(text[a..], Text.IntSpace);
    assert i >= a;
    assert text[a..][i - a] == text[i];
    assert i - a < b;
    j := i - a;
  }

  /** The stripped text continues as the original text does. */
  lemma StrippedNext(text: string, i: nat, j: nat)
    requires i + 1 < |text|
    requires j == i - Text.LeadingSpaces(text, Text.IntSpace)
    requires j + 1 < |Text.StripBy(text, Text.IntSpace)|
    ensures Text.StripBy(text, Text.IntSpace)[j + 1] == text[i + 1]
  {
    var a := Text.LeadingSpaces(text, Text.IntSpace);
    assert text[a..][j + 1] == text[i + 1];
  }

  lemma TrimRendered(n: int)
    ensures Text.StripBy(IntToString(n), Text.IntSpace) == IntToString(n)
  {
  }

  /** `int()` skips the whitespace it accepts on either side of a printed
      numeral. */
  lemma ParsePadded(w1: string, n: int, w2: string)
    requires Text.AllBlank(w1, Text.IntSpace) && Text.AllBlank(w2, Text.IntSpace)
    ensures ParseInt(w1 + IntToString(n) + w2) == Some(n)
  {
    var s := IntToString(n);
    Text.StripPadded(w1, s, w2, Text.IntSpace);
    TrimRendered(n);
    ParseRendered(n);
  }

  /** A digit group that ends in a digit is its own stripped form. */
  lemma DigitGroupUnstripped(t: string)
    requires IsDigitGroup(t)
    ensures Text.StripBy(t, Text.IntSpace) == t
  {
    assert SeparatesDigits(t, |t| - 1);
    assert [] + t + [] == t;
    Text.StripPadded([], t, [], Text.IntSpace);
  }

  /** A sign in front of a digit group is not stripped either. */
  lemma SignedUnstripped(sign: char, t: string)
    requires sign == '+' || sign == '-'
    requires IsDigitGroup(t)
    ensures Text.StripBy([sign] + t, Text.IntSpace) == [sign] + t
  {
    var u := [sign] + t;
    assert SeparatesDigits(t, |t| - 1);
    assert u[|u| - 1] == t[|t| - 1];
    assert [] + u + [] == u;
    Text.StripPadded([], u, [], Text.IntSpace);
  }

  lemma ParseDigitGroup(t: string)
    requires IsDigitGroup(t)
    ensures ParseInt(t) == Some(DigitsValue(t))
  {
    DigitGroupUnstripped(t);
  }

  lemma ParseSigned(sign: char, t: string)
    requires sign == '+' || sign == '-'
    requires IsDigitGroup(t)
    ensures ParseInt([sign] + t) == Some(if sign == '-' then -(DigitsValue(t) as int) else DigitsValue(t))
  {
    SignedUnstripped(sign, t);
    assert ([sign] + t)[1..] == t;
  }

  /** A digit group is an integer; a `+` in front of it changes nothing,
      and a `-` negates it. */
  lemma ParseSigns(t: string)
    requires IsDigitGroup(t)
    ensures ParseInt(t).Some?
    ensures ParseInt(['+'] + t) == ParseInt(t)
    ensures ParseInt(['-'] + t).Some? && ParseInt(['-'] + t).value == -ParseInt(t).value
  {
    ParseDigitGroup(t);
    ParseSigned('+', t);
    ParseSigned('-', t);
  }

  /** A separator between two digit groups adds nothing to the value. */
  lemma {:induction false} DigitsSkipSeparator(a: string, b: string)
    ensures DigitsValue(a + ['_'] + b) == DigitsValue(a + b)
  {
    var x, y := a + ['_'] + b, a + b;
    if b == [] {
      assert x[..|x| - 1] == a && x[|x| - 1] == '_';
      assert y == a;
    } else {
      var b' := b[..|b| - 1];
      DigitsSkipSeparator(a, b');
      assert x[..|x| - 1] == a + ['_'] + b' && x[|x| - 1] == b[|b| - 1];
      assert y[..|y| - 1] == a + b' && y[|y| - 1] == b[|b| - 1];
    }
  }

  /** Two digit groups written next to each other, with or without one
      `_` between them, form a digit group. */
  lemma JoinedGroups(a: string, b: string)
    requires IsDigitGroup(a) && IsDigitGroup(b)
    ensures IsDigitGroup(a + b)
    ensures IsDigitGroup(a + ['_'] + b)
  {
    assert SeparatesDigits(a, |a| - 1);
    var x, y := a + ['_'] + b, a + b;
    forall i | 0 <= i < |y|
      ensures (IsDigit(y[i]) || y[i] == '_') && SeparatesDigits(y, i)
    {
      if i < |a| {
        assert y[i] == a[i] && SeparatesDigits(a, i);
        if i + 1 < |a| {
          assert y[i + 1] == a[i + 1];
        }
      } else {
        assert y[i] == b[i - |a|] && SeparatesDigits(b, i - |a|);
        if i + 1 < |y| {
          assert y[i + 1] == b[i + 1 - |a|];
        }
      }
    }
    forall i | 0 <= i < |x|
      ensures (IsDigit(x[i]) || x[i] == '_') && SeparatesDigits(x, i)
    {
      if i < |a| {
        assert x[i] == a[i] && SeparatesDigits(a, i);
        if i + 1 < |a| {
          assert x[i + 1] == a[i + 1];
        }
      } else if i == |a| {
        assert x[i + 1] == b[0];
      } else {
        assert x[i] == b[i - |a| - 1] && SeparatesDigits(b, i - |a| - 1);
        if i + 1 < |x| {
          assert x[i + 1] == b[i - |a|];
        }
      }
    }
  }

  /** `int()` reads two digit groups joined by one `_` as the digits
      written without it. */
  lemma ParseSeparator(a: string, b: string)
    requires IsDigitGroup(a) && IsDigitGroup(b)
    ensures ParseInt(a + ['_'] + b).Some?
    ensures ParseInt(a + ['_'] + b) == ParseInt(a + b)
  {
    JoinedGroups(a, b);
    DigitsSkipSeparator(a, b);
    ParseDigitGroup(a + b);
    ParseDigitGroup(a + ['_'] + b);
  }
}

=== FILE: server.dfy ===
/** The per-connection transaction handler `handle_client` (server.py lines
    36-98): one request string and the ledger in, one response and the new
    ledger out. */
module Server {

  import opened Wrappers
  import Text
  import Numerals
  import opened Highway

  /** The ways a request is refused, each with its own response text. */
  datatype Error =
    | InvalidFormat
    | InvalidTollPoint
    | UnknownTransactionType
    | AlreadyInHighway(plate: string)
    | NotFoundInHighway(plate: string)
    | Internal(reason: string)

  /** `NoResponse` is the early return for a blank request (server.py line 48). */
  datatype Response =
    | NoResponse
    | Entered(plate: string, point: int)
    | Exited(plate: string, point: int, fee: int)
    | Failed(error: Error)

  /** The request shape a toll booth sends (client.py line 11); splitting
      it on `,` gives back comma-free fields. */
  function Compose(kind: string, plate: string, point: string): (msg: string)
    ensures ',' !in kind && ',' !in plate && ',' !in point ==> Text.Split(msg) == [kind, plate, point]
  {
    FieldsSplitBack(kind, plate, point);
    kind + "," + plate + "," + point
  }

  /** Three comma-free fields joined with `,` split back into themselves. */
  lemma FieldsSplitBack(kind: string, plate: string, point: string)
    ensures ',' !in kind && ',' !in plate && ',' !in point ==>
      Text.Split(kind + "," + plate + "," + point) == [kind, plate, point]
  {
    var fields := [kind, plate, point];
    assert fields[1..][1..] == [point];
    assert Text.Join(fields[1..]) == plate + "," + point;
    assert kind + "," + plate + "," + point == Text.Join(fields);
    if ',' !in kind && ',' !in plate && ',' !in point {
      Text.SplitJoin(fields);
    }
  }

  /** Handling of the three fields of a well-formed request (server.py lines
      56-98): the toll point is parsed first, then the transaction type is
      matched without regard to case, then the ledger is consulted. */
  function Dispatch(kind: string, plate: string, pointText: string, l: Ledger): (r: (Response, Ledger))
    ensures r.0 != NoResponse
    ensures r.0 == Failed(InvalidTollPoint) <==> Numerals.ParseInt(pointText).None?
    ensures r.0 == Failed(UnknownTransactionType) <==>
      Numerals.ParseInt(pointText).Some? && Text.Upper(kind) != "ENTRY" && Text.Upper(kind) != "EXIT"
    ensures r.0 == Failed(AlreadyInHighway(plate)) <==>
      Numerals.ParseInt(pointText).Some? && Text.Upper(kind) == "ENTRY" && plate in l.vehicles
    ensures r.0 == Failed(NotFoundInHighway(plate)) <==>
      Numerals.ParseInt(pointText).Some? && Text.Upper(kind) == "EXIT" && plate !in l.vehicles
    ensures r.0.Failed? ==> r.1 == l
    ensures r.0.Entered? ==> r.0 == Entered(plate, Numerals.ParseInt(pointText).value) && Text.Upper(kind) == "ENTRY"
    ensures r.0.Exited? ==> r.0.plate == plate && r.0.point == Numerals.ParseInt(pointText).value && Text.Upper(kind) == "EXIT"
    ensures r.0.Failed? ==>
      r.0.error in {InvalidTollPoint, UnknownTransactionType, AlreadyInHighway(plate), NotFoundInHighway(plate)}
    ensures Numerals.ParseInt(pointText).Some? && Text.Upper(kind) == "ENTRY" && plate !in l.vehicles ==>
      r == (Entered(plate, Numerals.ParseInt(pointText).value),
            TryEnter(l, plate, Numerals.ParseInt(pointText).value).value)
    ensures Numerals.ParseInt(pointText).Some? && Text.Upper(kind) == "EXIT" && plate in l.vehicles ==>
      var rc := TryExit(l, plate, Numerals.ParseInt(pointText).value).value;
      r == (Exited(plate, Numerals.ParseInt(pointText).value, rc.fee), rc.ledger)
  {
    match Numerals.ParseInt(pointText)
    case None => (Failed(InvalidTollPoint), l)
    case Some(point) =>
      var kindUpper := Text.Upper(kind);
      if kindUpper == "ENTRY" then
        match TryEnter(l, plate, point)
        case None => (Failed(AlreadyInHighway(plate)), l)
        case Some(l') => (Entered(plate, point), l')
      else if kindUpper == "EXIT" then
        match TryExit(l, plate, point)
        case None => (Failed(NotFoundInHighway(plate)), l)
        case Some(rc) => (Exited(plate, point, rc.fee), rc.ledger)
      else (Failed(UnknownTransactionType), l)
  }

  /** One transaction (server.py lines 46-98): the request is stripped, a
      blank one is dropped, one that does not split into exactly three
      comma-separated fields is refused, and the rest is dispatched. Only a
      successful ENTRY or EXIT changes the ledger, and it changes it exactly
      as the response says. */
  function Step(msg: string, l: Ledger): (r: (Response, Ledger))
    ensures r.0 == NoResponse <==> Text.AllBlank(msg, Text.StripSpace)
    ensures r.0 == Failed(InvalidFormat) <==>
      !Text.AllBlank(msg, Text.StripSpace) && Text.CommaCount(Text.Trim(msg)) != 2
    ensures r.0.NoResponse? || r.0.Failed? ==> r.1 == l
    ensures r.0.Entered? ==>
      && r.0.plate !in l.vehicles
      && r.1.vehicles == l.vehicles[r.0.plate := r.0.point]
      && r.1.completedCount == l.completedCount
      && r.1.totalFees == l.totalFees
    ensures r.0.Exited? ==>
      && r.0.plate in l.vehicles
      && r.0.fee == Fee(l.vehicles[r.0.plate], r.0.point)
      && r.1.vehicles == l.vehicles - {r.0.plate}
      && r.1.completedCount == l.completedCount + 1
      && r.1.totalFees == l.totalFees + r.0.fee
  {
    Text.TrimFixedPoint(msg);
    var data := Text.Trim(msg);
    if data == [] then (NoResponse, l)
    else
      var parts := Text.Split(data);
      if |parts| != 3 then (Failed(InvalidFormat), l)
      else Dispatch(parts[0], parts[1], parts[2], l)
  }

  /** A request built by a toll booth, with nothing around it for `strip()`
      to remove, reaches the dispatch with exactly the fields it was built
      from. */
  lemma ComposedRequest(kind: string, plate: string, point: string, l: Ledger)
    requires ',' !in kind && ',' !in plate && ',' !in point
    requires kind == [] || !Text.IsSpace(kind[0])
    requires point == [] || !Text.IsSpace(point[|point| - 1])
    ensures Step(Compose(kind, plate, point), l) == Dispatch(kind, plate, point, l)
  {
    var msg := Compose(kind, plate, point);
    ComposedTrim(kind, plate, point);
    assert Text.Trim(msg) == msg && msg != [];
    assert Text.Split(msg) == [kind, plate, point];
  }

  /** `strip()` leaves a booth request alone when it starts and ends with
      something other than whitespace. */
  lemma ComposedTrim(kind: string, plate: string, point: string)
    requires kind == [] || !Text.IsSpace(kind[0])
    requires point == [] || !Text.IsSpace(point[|point| - 1])
    ensures Text.Trim(Compose(kind, plate, point)) == Compose(kind, plate, point)
  {
  }

  /** A request whose trimmed text splits into any number of fields other
      than three is refused as malformed, whatever the fields hold. */
  lemma WrongFieldCount(fields: seq<string>, l: Ledger)
    requires |fields| > 0 && |fields| != 3
    requires forall k :: 0 <= k < |fields| ==> ',' !in fields[k]
    requires Text.Join(fields) != [] && Text.Trim(Text.Join(fields)) == Text.Join(fields)
    ensures Step(Text.Join(fields), l) == (Failed(InvalidFormat), l)
  {
    Text.TrimFixedPoint(Text.Join(fields));
    Text.SplitJoin(fields);
  }

  /** The type field is matched without regard to case: two type fields
      that upper-case alike are handled alike. */
  lemma CaseInsensitiveType(k1: string, k2: string, plate: string, pointText: string, l: Ledger)
    requires Text.Upper(k1) == Text.Upper(k2)
    ensures Dispatch(k1, plate, pointText, l) == Dispatch(k2, plate, pointText, l)
  {
  }

  /** The booth upper-cases the type before sending it (client.py lines
      34 and 46); the server's own upper-casing makes that change nothing. */
  lemma ClientUpperCase(kind: string, plate: string, pointText: string, l: Ledger)
    ensures Dispatch(Text.Upper(kind), plate, pointText, l) == Dispatch(kind, plate, pointText, l)
  {
    Text.UpperIdempotent(kind);
    CaseInsensitiveType(Text.Upper(kind), kind, plate, pointText, l);
  }

  /** `entry`, `Entry` and `ENTRY` all name the same transaction, and so
      do `exit`, `Exit` and `EXIT`. */
  lemma EntrySpellings()
    ensures Text.Upper("entry") == Text.Upper("Entry") == Text.Upper("ENTRY") == "ENTRY"
    ensures Text.Upper("exit") == Text.Upper("Exit") == Text.Upper("EXIT") == "EXIT"
  {
    KeywordsUpper();
    assert Text.Upper("entry") == "ENTRY";
    assert Text.Upper("Entry") == "ENTRY";
    assert Text.Upper("exit") == "EXIT";
    assert Text.Upper("Exit") == "EXIT";
  }

  /** The keywords are their own upper-case form. */
  lemma KeywordsUpper()
    ensures Text.Upper("ENTRY") == "ENTRY" && Text.Upper("EXIT") == "EXIT"
  {
  }

  /** The check order: an unreadable toll point is reported even when the
      transaction type is unknown too. */
  lemma TollPointCheckedBeforeType(kind: string, plate: string, point: string, l: Ledger)
    requires ',' !in kind && ',' !in plate && ',' !in point
    requires kind == [] || !Text.IsSpace(kind[0])
    requires point == [] || !Text.IsSpace(point[|point| - 1])
    requires Numerals.ParseInt(point).None?
    ensures Step(Compose(kind, plate, point), l) == (Failed(InvalidTollPoint), l)
  {
    ComposedRequest(kind, plate, point, l);
  }

  /** The response text sent to the booth (server.py lines 51, 60, 68, 74,
      81, 91 and 96), with the catch-all handler's text (line 100) for an
      internal error; a blank request gets nothing. The fee is printed the
      way Python prints a float holding a whole number. */
  function Render(r: Response): (text: Option<string>)
    ensures text.None? <==> r.NoResponse?
    ensures text.Some? ==> (IsErrorText(text.value) <==> r.Failed?)
    ensures r.Entered? || r.Exited? ==>
      && |text.value| > 8 + |r.plate|
      && text.value[..8] == "Vehicle "
      && text.value[8..8 + |r.plate|] == r.plate
    ensures r.Entered? ==> Numerals.IsDigit(text.value[|text.value| - 1])
    ensures r.Exited? ==> text.value[|text.value| - 2..] == ".0"
  {
    match r
    case NoResponse => None
    case Entered(plate, point) =>
      var numeral := Numerals.IntToString(point);
      var head := "Vehicle " + plate;
      var text := head + " entered at point " + numeral;
      assert text[..|head|] == head && head[..8] == "Vehicle " && head[8..] == plate;
      assert text[0] == 'V';
      assert text[|text| - 1] == numeral[|numeral| - 1];
      Some(text)
    case Exited(plate, point, fee) =>
      var head := "Vehicle " + plate;
      var body := " exited at point " + Numerals.IntToString(point) + ". Fee: " + Numerals.IntToString(fee);
      var text := head + body + ".0";
      assert text[..|head|] == head && head[..8] == "Vehicle " && head[8..] == plate;
      assert text[0] == 'V';
      assert text[|text| - 2..] == ".0";
      Some(text)
    case Failed(e) => Some("ERROR: " + ErrorText(e))
  }

  /** The numeral closing an ENTRY reply reads back, through `int()`, as
      the entry point: `"Vehicle " + plate` is followed by the 18
      characters ` entered at point ` and then the point. */
  lemma RenderEnteredPoint(plate: string, point: int)
    ensures var t := Render(Entered(plate, point)).value;
      && |t| > 26 + |plate|
      && t[8 + |plate|..26 + |plate|] == " entered at point "
      && Numerals.ParseInt(t[26 + |plate|..]) == Some(point)
  {
    var numeral := Numerals.IntToString(point);
    var t := Render(Entered(plate, point)).value;
    assert t == ("Vehicle " + plate + " entered at point ") + numeral;
    assert t[26 + |plate|..] == numeral;
    Numerals.ParseRendered(point);
  }

  /** An EXIT reply names the exit point after ` exited at point ` and
      the fee between `. Fee: ` and the closing `.0`, and both read back,
      through `int()`, as the values the ledger used. */
  lemma RenderExitedFigures(plate: string, point: int, fee: int)
    ensures exists k :: ExitedFigures(Render(Exited(plate, point, fee)).value, plate, point, fee, k)
  {
    var p, f := Numerals.IntToString(point), Numerals.IntToString(fee);
    var t := Render(Exited(plate, point, fee)).value;
    assert t == "Vehicle " + plate + " exited at point " + p + ". Fee: " + f + ".0";
    assert Numerals.ParseInt(p) == Some(point) by { Numerals.ParseRendered(point); }
    assert Numerals.ParseInt(f) == Some(fee) by { Numerals.ParseRendered(fee); }
    ExitedFiguresAt(t, plate, p, f, point, fee);
  }

  /** The EXIT reply `t` names the exit point after ` exited at point `
      and the fee, starting at `k`, after `. Fee: ` and before the closing
      `.0`; both numerals read back, through `int()`, as `point` and
      `fee`. */
  predicate ExitedFigures(t: string, plate: string, point: int, fee: int, k: int) {
    && 25 + |plate| <= k - 7
    && k < |t| - 2
    && t[8 + |plate|..25 + |plate|] == " exited at point "
    && t[k - 7..k] == ". Fee: "
    && Numerals.ParseInt(t[25 + |plate|..k - 7]) == Some(point)
    && Numerals.ParseInt(t[k..|t| - 2]) == Some(fee)
  }

  /** The same, for an EXIT reply written out with numerals that read
      back as the point and the fee. */
  lemma ExitedFiguresAt(t: string, plate: string, p: string, f: string, point: int, fee: int)
    requires t == "Vehicle " + plate + " exited at point " + p + ". Fee: " + f + ".0"
    requires |p| > 0 && |f| > 0
    requires Numerals.ParseInt(p) == Some(point) && Numerals.ParseInt(f) == Some(fee)
    ensures ExitedFigures(t, plate, point, fee, 32 + |plate| + |p|)
  {
    ExitedSlices(t, plate, p, f);
  }

  /** Where the parts of an EXIT reply sit, for any numerals `p` and `f`. */
  lemma ExitedSlices(t: string, plate: string, p: string, f: string)
    requires t == "Vehicle " + plate + " exited at point " + p + ". Fee: " + f + ".0"
    requires |p| > 0 && |f| > 0
    ensures var k := 32 + |plate| + |p|;
      && |t| == k + |f| + 2
      && t[8 + |plate|..25 + |plate|] == " exited at point "
      && t[25 + |plate|..k - 7] == p
      && t[k - 7..k] == ". Fee: "
      && t[k..|t| - 2] == f
  {
    var head := "Vehicle " + plate + " exited at point ";
    assert t == head + (p + (". Fee: " + (f + ".0")));
    assert t[8 + |plate|..25 + |plate|] == head[8 + |plate|..];
  }

  /** The text after `ERROR: ` for each refusal. The two refusals about a
      vehicle are the only fixed texts that start with `V`, and they name
      the plate right after `Vehicle `. */
  function ErrorText(e: Error): (t: string)
    ensures !e.Internal? ==> |t| > 0 && (t[0] == 'V' <==> e.AlreadyInHighway? || e.NotFoundInHighway?)
    ensures e.AlreadyInHighway? || e.NotFoundInHighway? ==>
      |t| > 8 + |e.plate| && t[..8] == "Vehicle " && t[8..8 + |e.plate|] == e.plate
  {
    match e
    case InvalidFormat => "Invalid message format"
    case InvalidTollPoint => "Invalid toll point"
    case UnknownTransactionType => "Unknown transaction type"
    case AlreadyInHighway(plate) => "Vehicle " + plate + " already in highway"
    case NotFoundInHighway(plate) => "Vehicle " + plate + " not found in highway"
    case Internal(reason) => reason
  }

  /** A booth can tell the refusals apart by their text: different
      refusals, or the same refusal about different plates, never read
      alike. */
  lemma ErrorTextDistinct(e1: Error, e2: Error)
    requires !e1.Internal? && !e2.Internal?
    ensures ErrorText(e1) == ErrorText(e2) <==> e1 == e2
  {
    match (e1, e2)
    case (AlreadyInHighway(p1), NotFoundInHighway(p2)) => VehicleRefusalsDiffer(p1, p2, ErrorText(e1), ErrorText(e2));
    case (NotFoundInHighway(p1), AlreadyInHighway(p2)) => VehicleRefusalsDiffer(p2, p1, ErrorText(e2), ErrorText(e1));
    case (AlreadyInHighway(p1), AlreadyInHighway(p2)) => PlateNamed(p1, p2, " already in highway");
    case (NotFoundInHighway(p1), NotFoundInHighway(p2)) => PlateNamed(p1, p2, " not found in highway");
    case _ =>
  }

  /** A duplicate ENTRY and an unknown EXIT never read alike, whatever
      the plates: their last 18 characters differ in the first. */
  lemma VehicleRefusalsDiffer(p1: string, p2: string, t1: string, t2: string)
    requires t1 == "Vehicle " + p1 + " already in highway"
    requires t2 == "Vehicle " + p2 + " not found in highway"
    ensures t1 != t2
  {
    if |t1| == |t2| {
      assert t1[|t1| - 18] == 'a';
      assert t2[|t2| - 18] == 't';
    }
  }

  /** The same refusal text names the same plate. */
  lemma PlateNamed(p1: string, p2: string, suffix: string)
    ensures "Vehicle " + p1 + suffix == "Vehicle " + p2 + suffix ==> p1 == p2
  {
    var t1, t2 := "Vehicle " + p1 + suffix, "Vehicle " + p2 + suffix;
    if t1 == t2 {
      assert |p1| == |p2|;
      assert t1[8..8 + |p1|] == p1 && t2[8..8 + |p2|] == p2;
    }
  }

  predicate IsErrorText(text: string) {
    |text| >= 7 && text[..7] == "ERROR: "
  }
}

=== FILE: text.dfy ===
/** The string operations the transaction handler applies to a request:
    Python's `str.strip()`, `str.split(',')` and `str.upper()`. */
module Text {

  /** Python's `str.isspace()`: the ASCII control whitespace, the information
      separators U+001C..U+001F, the space, and the Unicode space separators. */
  predicate IsSpace(c: char) {
    var k := c as int;
    || 9 <= k <= 13
    || 28 <= k <= 32
    || k == 0x85 || k == 0xA0 || k == 0x1680
    || 0x2000 <= k <= 0x200A
    || k == 0x2028 || k == 0x2029 || k == 0x202F || k == 0x205F || k == 0x3000
  }

  /** Which routine's notion of whitespace is meant: `str.strip()` drops
      every `str.isspace()` character, while `int()` skips only the ASCII
      whitespace `\t\n\v\f\r` and space, plus the non-ASCII `str.isspace()`
      characters, and so not the separators U+001C..U+001F. */
  datatype Whitespace = StripSpace | IntSpace

  predicate IsBlank(c: char, w: Whitespace) {
    IsSpace(c) && (w == IntSpace ==> !(28 <= c as int <= 31))
  }

  /** `s` is whitespace of kind `w` throughout. */
  predicate AllBlank(s: string, w: Whitespace) {
    forall k :: 0 <= k < |s| ==> IsBlank(s[k], w)
  }

  /** The number of whitespace characters `s` starts with. */
  function LeadingSpaces(s: string, w: Whitespace): (n: nat)
    ensures n <= |s|
    ensures forall k :: 0 <= k < n ==> IsBlank(s[k], w)
    ensures n == |s| || !IsBlank(s[n], w)
  {
    if |s| > 0 && IsBlank(s[0], w) then 1 + LeadingSpaces(s[1..], w) else 0
  }

  /** The length of `s` without the whitespace it ends with. */
  function TrailingStart(s: string, w: Whitespace): (n: nat)
    ensures n <= |s|
    ensures forall k :: n <= k < |s| ==> IsBlank(s[k], w)
    ensures n == 0 || !IsBlank(s[n - 1], w)
  {
    if |s| > 0 && IsBlank(s[|s| - 1], w) then TrailingStart(s[..|s| - 1], w) else |s|
  }

  /** Drops the leading and trailing whitespace of kind `w`, and nothing else. */
  function StripBy(s: string, w: Whitespace): (r: string)
    ensures r == [] || (!IsBlank(r[0], w) && !IsBlank(r[|r| - 1], w))
  {
    var a := LeadingSpaces(s, w);
    s[a..a + TrailingStart(s[a..], w)]
  }

  /** Python's `str.strip()` with no argument (server.py line 46). */
  function Trim(s: string): (r: string)
    ensures r == [] || (!IsSpace(r[0]) && !IsSpace(r[|r| - 1]))
  {
    StripBy(s, StripSpace)
  }

  /** What `Trim` keeps is a middle part of its input, and what it drops on
      either side is whitespace only. */
  lemma TrimSpec(s: string)
    ensures exists i, j :: 0 <= i <= j <= |s| && Trim(s) == s[i..j] && AllBlank(s[..i], StripSpace) && AllBlank(s[j..], StripSpace)
  {
    var a := LeadingSpaces(s, StripSpace);
    var t := s[a..];
    var b := a + TrailingStart(t, StripSpace);
    assert Trim(s) == s[a..b];
    assert AllBlank(s[..a], StripSpace) by {
      forall k | 0 <= k < a ensures IsBlank(s[..a][k], StripSpace) {
        assert IsBlank(s[k], StripSpace);
      }
    }
    assert AllBlank(s[b..], StripSpace) by {
      forall k | 0 <= k < |s| - b ensures IsBlank(s[b..][k], StripSpace) {
        assert s[b..][k] == t[k + b - a];
        assert IsBlank(t[k + b - a], StripSpace);
      }
    }
  }

  /** A string with no surrounding whitespace is its own trimmed form, and
      trimming a string of whitespace only leaves nothing. */
  lemma TrimFixedPoint(s: string)
    ensures (s == [] || (!IsSpace(s[0]) && !IsSpace(s[|s| - 1]))) <==> Trim(s) == s
    ensures Trim(s) == [] <==> AllBlank(s, StripSpace)
  {
  }

  /** Whitespace of kind `w` in front of a string that does not start with
      such whitespace is exactly what `LeadingSpaces` counts. */
  lemma {:induction false} LeadingBlanks(w1: string, s: string, w: Whitespace)
    requires AllBlank(w1, w)
    requires s == [] || !IsBlank(s[0], w)
    ensures LeadingSpaces(w1 + s, w) == |w1|
  {
    if w1 == [] {
      assert w1 + s == s;
    } else {
      assert (w1 + s)[0] == w1[0];
      assert (w1 + s)[1..] == w1[1..] + s;
      LeadingBlanks(w1[1..], s, w);
    }
  }

  /** Symmetrically, whitespace of kind `w` after a string that does not
      end with such whitespace is exactly what `TrailingStart` cuts off. */
  lemma {:induction false} TrailingBlanks(s: string, w2: string, w: Whitespace)
    requires AllBlank(w2, w)
    requires s == [] || !IsBlank(s[|s| - 1], w)
    ensures TrailingStart(s + w2, w) == |s|
  {
    if w2 == [] {
      assert s + w2 == s;
    } else {
      var t := s + w2;
      assert t[|t| - 1] == w2[|w2| - 1];
      assert t[..|t| - 1] == s + w2[..|w2| - 1];
      TrailingBlanks(s, w2[..|w2| - 1], w);
    }
  }

  /** Stripping whitespace of kind `w` from a string padded with it on
      both sides gives back the string, when the string itself starts and
      ends with something else. */
  lemma StripPadded(w1: string, s: string, w2: string, w: Whitespace)
    requires AllBlank(w1, w) && AllBlank(w2, w)
    requires s != [] && !IsBlank(s[0], w) && !IsBlank(s[|s| - 1], w)
    ensures StripBy(w1 + s + w2, w) == s
  {
    var t, u := w1 + s + w2, s + w2;
    assert u[0] == s[0] && t == w1 + u;
    LeadingBlanks(w1, u, w);
    assert t[|w1|..] == u;
    TrailingBlanks(s, w2, w);
    assert t[|w1|..|w1| + |s|] == u[..|s|] == s;
  }

  /** Python's `str.split(',')`: the maximal comma-free pieces, in order,
      including empty ones. */
  function Split(s: string): (fields: seq<string>)
    ensures |fields| == CommaCount(s) + 1
    ensures forall k :: 0 <= k < |fields| ==> ',' !in fields[k]
  {
    if s == [] then [""]
    else
      var rest := Split(s[1..]);
      if s[0] == ',' then [""] + rest
      else [[s[0]] + rest[0]] + rest[1..]
  }

  function CommaCount(s: string): nat {
    if s == [] then 0 else (if s[0] == ',' then 1 else 0) + CommaCount(s[1..])
  }

  /** Python's `','.join(fields)`, the inverse of `Split`. */
  function Join(fields: seq<string>): string
    requires |fields| > 0
  {
    if |fields| == 1 then fields[0] else fields[0] + "," + Join(fields[1..])
  }

  /** Joining the pieces of a split gives back the original string. */
  lemma {:induction false} JoinSplit(s: string)
    ensures Join(Split(s)) == s
  {
    if s != [] {
      var rest := Split(s[1..]);
      JoinSplit(s[1..]);
      if s[0] == ',' {
        assert Join(Split(s)) == "" + "," + Join(rest);
      } else if |rest| == 1 {
        assert Join(Split(s)) == [s[0]] + rest[0];
      } else {
        assert Join(rest) == rest[0] + "," + Join(rest[1..]);
        assert Join(Split(s)) == ([s[0]] + rest[0]) + "," + Join(rest[1..]);
      }
    }
  }

  lemma {:induction false} SplitPrefix(a: string, b: string)
    requires ',' !in a
    ensures Split(a + "," + b) == [a] + Split(b)
  {
    if a != [] {
      assert (a + "," + b)[1..] == a[1..] + "," + b;
      SplitPrefix(a[1..], b);
      assert [a[0]] + a[1..] == a;
    } else {
      assert (a + "," + b) == "," + b;
      assert ("," + b)[1..] == b;
    }
  }

  lemma {:induction false} SplitCommaFree(a: string)
    requires ',' !in a
    ensures Split(a) == [a]
  {
    if a != [] {
      SplitCommaFree(a[1..]);
      assert [a[0]] + a[1..] == a;
    }
  }

  /** Splitting a join of comma-free pieces gives back the pieces. */
  lemma {:induction false} SplitJoin(fields: seq<string>)
    requires |fields| > 0
    requires forall k :: 0 <= k < |fields| ==> ',' !in fields[k]
    ensures Split(Join(fields)) == fields
  {
    if |fields| == 1 {
      SplitCommaFree(fields[0]);
    } else {
      SplitJoin(fields[1..]);
      SplitPrefix(fields[0], Join(fields[1..]));
    }
  }

  /** The single-character upper-case mappings of Python's `str.upper()` whose
      result is an ASCII letter: `a`..`z`, dotless i (U+0131) and long s
      (U+017F). Every other character is kept, which cannot change whether
      an upper-cased word equals an all-ASCII upper-case keyword. */
  function UpperChar(c: char): char {
    if 'a' <= c <= 'z' then (c as int - 32) as char
    else if c == '\U{0131}' then 'I'
    else if c == '\U{017F}' then 'S'
    else c
  }

  function Upper(s: string): (r: string)
    ensures |r| == |s|
    ensures forall i :: 0 <= i < |s| ==> r[i] == UpperChar(s[i])
  {
    if s == [] then [] else [UpperChar(s[0])] + Upper(s[1..])
  }

  /** Upper-casing is idempotent, so case variants of a word agree. */
  lemma UpperIdempotent(s: string)
    ensures Upper(Upper(s)) == Upper(s)
  {
  }
}

=== FILE: traces.dfy ===
/** Runs of the server: the requests it handles, one after another, each as
    one atomic step on the ledger (the lock of server.py lines 66 and 79
    makes every interleaving of handlers equal to some such order). */
module Traces {

  import opened Wrappers
  import Text
  import Numerals
  import opened Highway
  import opened Server

  /** Handles `msgs` in order from ledger `l`: the responses and the final
      ledger. */
  function Run(msgs: seq<string>, l: Ledger): (r: (seq<Response>, Ledger))
    ensures |r.0| == |msgs|
  {
    if msgs == [] then ([], l)
    else
      var first := Step(msgs[0], l);
      var rest := Run(msgs[1..], first.1);
      ([first.0] + rest.0, rest.1)
  }

  /** Number of successful ENTRY responses. */
  function CountEntered(rs: seq<Response>): nat {
    if rs == [] then 0 else (if rs[0].Entered? then 1 else 0) + CountEntered(rs[1..])
  }

  /** Number of successful EXIT responses. */
  function CountExited(rs: seq<Response>): nat {
    if rs == [] then 0 else (if rs[0].Exited? then 1 else 0) + CountExited(rs[1..])
  }

  /** Sum of the fees charged in the EXIT responses. */
  function SumFees(rs: seq<Response>): int {
    if rs == [] then 0 else (if rs[0].Exited? then rs[0].fee else 0) + SumFees(rs[1..])
  }

  /** The ledger's counters agree with the responses sent: every vehicle
      that ever entered is either still on the highway or counted as a
      completed trip, every completed trip was reported as an exit, and the
      fee total is the sum of the fees reported. */
  lemma {:induction false} RunAccounting(msgs: seq<string>, l: Ledger)
    ensures var (rs, l') := Run(msgs, l);
      && |l'.vehicles| + l'.completedCount == |l.vehicles| + l.completedCount + CountEntered(rs)
      && l'.completedCount == l.completedCount + CountExited(rs)
      && l'.totalFees == l.totalFees + SumFees(rs)
  {
    if msgs != [] {
      var (resp, l1) := Step(msgs[0], l);
      RunAccounting(msgs[1..], l1);
      var (rs, l') := Run(msgs, l);
      assert rs[1..] == Run(msgs[1..], l1).0;
      if resp.Entered? {
        assert l1.vehicles.Keys == l.vehicles.Keys + {resp.plate};
      } else if resp.Exited? {
        assert l1.vehicles.Keys == l.vehicles.Keys - {resp.plate};
      }
    }
  }

  lemma {:induction false} SumFeesNonNegative(msgs: seq<string>, l: Ledger)
    ensures SumFees(Run(msgs, l).0) >= 0
  {
    if msgs != [] {
      var (resp, l1) := Step(msgs[0], l);
      SumFeesNonNegative(msgs[1..], l1);
      assert Run(msgs, l).0[1..] == Run(msgs[1..], l1).0;
    }
  }

  /** The counters never go down, so a valid ledger stays valid. */
  lemma RunMonotone(msgs: seq<string>, l: Ledger)
    ensures Run(msgs, l).1.completedCount >= l.completedCount
    ensures Run(msgs, l).1.totalFees >= l.totalFees
    ensures Valid(l) ==> Valid(Run(msgs, l).1)
  {
  }

  /** From the server's start, the statistics line shows as many vehicles on
      the highway plus completed trips as there were successful entries,
      as many completed trips as successful exits, and the sum of their
      fees. */
  lemma SnapshotFromStart(msgs: seq<string>)
    ensures var (rs, l') := Run(msgs, Empty);
      && Snap(l').current + Snap(l').completed == CountEntered(rs)
      && Snap(l').completed == CountExited(rs)
      && Snap(l').fees == SumFees(rs)
      && Snap(l').fees >= 0
  {
    RunAccounting(msgs, Empty);
    SumFeesNonNegative(msgs, Empty);
  }

  /** The response to the `i`-th request of a run is what that request gets
      from the ledger the earlier requests left behind, since the server
      keeps no state beyond the ledger. */
  lemma {:induction false} RunResponseAt(msgs: seq<string>, l: Ledger, i: nat)
    requires i < |msgs|
    ensures Run(msgs, l).0[i] == Step(msgs[i], Run(msgs[..i], l).1).0
  {
    var r1, l1 := Step(msgs[0], l).0, Step(msgs[0], l).1;
    var rest := Run(msgs[1..], l1);
    assert Run(msgs, l).0 == [r1] + rest.0;
    if i == 0 {
      assert msgs[..0] == [];
    } else {
      RunResponseAt(msgs[1..], l1, i - 1);
      var front := msgs[..i];
      assert front[0] == msgs[0];
      assert front[1..] == msgs[1..][..i - 1];
      assert Run(front, l).1 == Run(msgs[1..][..i - 1], l1).1;
    }
  }

  /** Each request of a run goes unanswered exactly when it is blank,
      whatever came before it. */
  lemma RunSilentOnBlank(msgs: seq<string>, l: Ledger, i: nat)
    requires i < |msgs|
    ensures Run(msgs, l).0[i] == NoResponse <==> Text.AllBlank(msgs[i], Text.StripSpace)
  {
    RunResponseAt(msgs, l, i);
  }

  /** The state of one plate: its entry point while on the highway. */
  function PlateState(l: Ledger, plate: string): (s: Option<int>)
    ensures s.Some? <==> plate in l.vehicles
  {
    if plate in l.vehicles then Some(l.vehicles[plate]) else None
  }

  /** Each step moves at most the plate its response names, and only along
      ABSENT -> PRESENT(point) on ENTRY and PRESENT -> ABSENT on EXIT. */
  lemma StepPlateMachine(msg: string, l: Ledger, q: string)
    ensures var (resp, l') := Step(msg, l);
      && (resp.Entered? && resp.plate == q ==> PlateState(l, q) == None && PlateState(l', q) == Some(resp.point))
      && (resp.Exited? && resp.plate == q ==> PlateState(l, q).Some? && PlateState(l', q) == None)
      && (!(resp.Entered? || resp.Exited?) || resp.plate != q ==> PlateState(l', q) == PlateState(l, q))
  {
  }

  /** A booth's ENTRY of a plate not on the highway, followed by its EXIT,
      is answered with both successes, restores the vehicles exactly, counts
      one trip and adds the distance times the rate to the fees. */
  lemma EntryThenExitRequests(plate: string, a: int, b: int, l: Ledger)
    requires ',' !in plate && plate !in l.vehicles
    ensures var (rs, l') := Run([Compose("ENTRY", plate, Numerals.IntToString(a)),
                                 Compose("EXIT", plate, Numerals.IntToString(b))], l);
      && rs == [Entered(plate, a), Exited(plate, b, Abs(b - a) * RATE)]
      && l'.vehicles == l.vehicles
      && l'.completedCount == l.completedCount + 1
      && l'.totalFees == l.totalFees + Abs(b - a) * RATE
  {
    var m1, m2 := Compose("ENTRY", plate, Numerals.IntToString(a)), Compose("EXIT", plate, Numerals.IntToString(b));
    EnterThenExit(l, plate, a, b);
    var l1 := TryEnter(l, plate, a).value;
    EntryRequest(plate, a, l);
    ExitRequest(plate, b, l1);
    var l2 := TryExit(l1, plate, b).value.ledger;
    RunTwo(m1, m2, l);
  }

  /** Handling a request and then the rest is handling them all. */
  lemma RunCons(m: string, rest: seq<string>, l: Ledger)
    ensures Run([m] + rest, l) ==
      ([Step(m, l).0] + Run(rest, Step(m, l).1).0, Run(rest, Step(m, l).1).1)
  {
  }

  lemma RunTwo(m1: string, m2: string, l: Ledger)
    ensures Run([m1, m2], l).0 == [Step(m1, l).0, Step(m2, Step(m1, l).1).0]
    ensures Run([m1, m2], l).1 == Step(m2, Step(m1, l).1).1
  {
    var l1 := Step(m1, l).1;
    RunCons(m1, [m2], l);
    assert [m1] + [m2] == [m1, m2];
    RunCons(m2, [], l1);
    assert [m2] + [] == [m2];
  }

  /** A booth's ENTRY request with a rendered toll point is dispatched as
      an ENTRY at that point. */
  lemma EntryRequest(plate: string, a: int, l: Ledger)
    requires ',' !in plate
    ensures Step(Compose("ENTRY", plate, Numerals.IntToString(a)), l) ==
      if plate in l.vehicles then (Failed(AlreadyInHighway(plate)), l)
      else (Entered(plate, a), TryEnter(l, plate, a).value)
  {
    RenderedPointRequest("ENTRY", plate, a, l);
    Server.KeywordsUpper();
  }

  /** A booth's EXIT request with a rendered toll point is dispatched as an
      EXIT at that point. */
  lemma ExitRequest(plate: string, b: int, l: Ledger)
    requires ',' !in plate
    ensures Step(Compose("EXIT", plate, Numerals.IntToString(b)), l) ==
      if plate !in l.vehicles then (Failed(NotFoundInHighway(plate)), l)
      else (Exited(plate, b, TryExit(l, plate, b).value.fee), TryExit(l, plate, b).value.ledger)
  {
    RenderedPointRequest("EXIT", plate, b, l);
    Server.KeywordsUpper();
  }

  /** A booth request whose toll point is a printed integer reaches the
      dispatch with that integer readable. */
  lemma RenderedPointRequest(kind: string, plate: string, a: int, l: Ledger)
    requires ',' !in kind && ',' !in plate
    requires kind == [] || !Text.IsSpace(kind[0])
    ensures Step(Compose(kind, plate, Numerals.IntToString(a)), l) == Dispatch(kind, plate, Numerals.IntToString(a), l)
    ensures Numerals.ParseInt(Numerals.IntToString(a)) == Some(a)
  {
    var ta := Numerals.IntToString(a);
    Numerals.ParseRendered(a);
    assert ',' !in ta;
    ComposedRequest(kind, plate, ta, l);
  }
}

=== FILE: wrappers.dfy ===
/** The optional value used wherever the server's Python code either yields a
    value or raises an error that the handler turns into a response. */
module Wrappers {

  datatype Option<+T> = None | Some(value: T)
}
